=== FILE: README.md ===
# gemini-audio-chat, modelled in Dafny

The program is a browser chat box. It sends the user's text to a hosted
text-generation service, shows the answer with a typing animation, and
reads it aloud through the browser's speech synthesis. This project models
its four small state machines as immutable records and pure transition
functions, and proves the properties the code promises.

- **Typing animator** (`typing_effect.dfy`, module `TypingEffect`). This is
  the `useTypingEffect` hook. Each firing of the interval timer is one
  `Tick`. A cleared timer never fires again, so `Tick` of an inactive
  animator does nothing.
- **Speech layer** (`tts_service.dfy`, module `TtsService`). These are
  `speak`, `pauseSpeaking`, `resumeSpeaking` and `stopSpeaking` over an
  abstract engine. The engine is a queue of utterances plus a paused flag.
  Its `speaking` attribute is "the queue is non-empty", so it is also true
  while paused. Each engine step returns the event handlers it invoked, in
  order.
- **Conversation store** (`chat_interface.dfy`, module `ChatInterface`).
  `handleSendMessage` is split at its `await`:
  - `BeginSend` runs the guard, appends the USER message and clears the
    input;
  - `FinishSend` appends the single AI message and clears loading.
- **Message display** (`message.dfy`, module `MessageView`). This covers
  `shouldAnimate`, `textToRender` and `showListenButton`, plus the auto-play
  that `onAnimationComplete` triggers. It is combined with the animator.
- **Application shell** (`app.dfy`, module `App`). This covers:
  - the `isSpeaking`/`isPaused` flags and their four handlers;
  - `loadVoices`, `handleVoiceChange`, `handleRateChange`, `playAudio` and
    `handleClearChat`;
  - the chat panel, mounted under `chatKey`.

  The main theorem is `App.ReachableShellsMirror`. From the initial state,
  after any sequence of user actions, host events and generation replies,
  two things hold:
  - `isSpeaking` is true exactly when the engine holds an utterance;
  - `isPaused` is true exactly when the engine is paused.

  It follows that `isPaused ⟹ isSpeaking`. The speech layer also never holds
  more than one utterance.

`types.dfy` holds the record types of `types.ts`, an `Option` type for the
program's `null`/`undefined`, and the library functions the code uses:
`startsWith`, `includes`, `filter` and `find`.

Inputs that the program gets from outside are parameters of the model:
- the generation service's outcome (`ChatInterface.Reply`);
- message ids, which come from the clock;
- the host's voice list;
- whether the host supports speech at all (a parameter of the speech layer; the shell needs it, see `App.Init` below);
- the confirmation dialog's answer;
- the moment an utterance ends naturally.

### Behaviour worth knowing
- **Empty text.** For empty text the typing hook sets `isComplete` but never
  calls `onComplete` (`components/useTypingEffect.ts:27-31`). So an AI
  message with empty text shows Listen at once but never plays itself
  (`MessageView.EmptyAnswerNeverAutoPlays`).
- **Replies after a clear.** A reply that settles after a clear is dropped.
  Clearing bumps `chatKey` (`App.tsx:63`), and the panel is mounted under
  that key (`App.tsx:165`), so the old panel is unmounted. The pending
  `handleSendMessage` then updates the unmounted panel, and those state
  updates are discarded. The model tags each reply with the key of the
  panel that sent it (`App.StaleReplyIsDropped`).
- **Pause guard.** `pauseSpeaking` checks only `speaking`
  (`services/ttsService.ts:46`), which is also true while paused. The engine
  ignores a pause while paused, so a second pause changes nothing
  (`TtsService.PauseSpeaking`).
- **Voice list order.** The voice list is an ordered list, and the default
  choice depends on the host's order (`App.DefaultFollowsHostOrder`).

## Model

| member | source | states |
|---|---|---|
| SeqUtil.Filter | App.tsx:25 | the result holds exactly the input's elements that pass the test, each satisfying it, and is no longer than the input |
| SeqUtil.FilterSingle | App.tsx:25 | a single element is kept exactly when it passes the test |
| SeqUtil.FilterAppend | App.tsx:25 | filtering a concatenation concatenates the filtered pieces, so the kept elements stay in the input's order |
| SeqUtil.FilterCounts | App.tsx:25 | a passing element occurs in the result as often as in the input, a failing one not at all |
| SeqUtil.FindFirst | App.tsx:31 | `find` returns the first element satisfying the test, and nothing exactly when none does |
| SeqUtil.FindInFilter | App.tsx:25-31 | searching the filtered list finds the same element as searching the whole list for "passes the filter and the test": filtering keeps the host's order |
| TypingEffect.Start | components/useTypingEffect.ts:25-36 | empty text starts complete, with nothing shown and no timer; other text starts incomplete from the empty prefix with the timer running; the invariant holds |
| TypingEffect.Cleanup | components/useTypingEffect.ts:48 | cleanup stops the timer, keeps the shown text and completion, and keeps the invariant |
| TypingEffect.CleanupStopsTicks | components/useTypingEffect.ts:48 | after cleanup no tick changes anything or calls `onComplete` |
| TypingEffect.Update | components/useTypingEffect.ts:25-49 | a render with the same text and speed keeps the animation (while `onComplete` keeps its identity); a changed text or speed restarts it from scratch |
| TypingEffect.Tick | components/useTypingEffect.ts:37-46 | a tick with characters left appends exactly the next character; the tick after the last one stops the timer, sets completion and reports `onComplete`; a stopped timer does nothing; the invariant (shown text = first `i` characters, completion implies the whole text) is preserved |
| TypingEffect.RunPreservesInv | components/useTypingEffect.ts:36-46 | the invariant holds after any number of ticks |
| TypingEffect.StoppedTimerStaysStopped | components/useTypingEffect.ts:42-48 | once the timer is cleared, no later tick changes anything or calls `onComplete` |
| TypingEffect.RevealsOneCharPerTick | components/useTypingEffect.ts:38-40 | while characters remain, k ticks reveal exactly k more characters and call nothing |
| TypingEffect.ShowsPrefixAfterTicks | components/useTypingEffect.ts:33-41 | after k ≤ \|text\| ticks of fresh non-empty text, exactly `text[..k]` is shown, the timer runs and nothing is complete |
| TypingEffect.CompletesExactlyOnce | components/useTypingEffect.ts:38-45 | over n ticks `onComplete` runs once if n > \|text\| and never otherwise; after that the whole text is shown and the timer is stopped |
| TypingEffect.EmptyTextNeverCompletes | components/useTypingEffect.ts:27-31 | empty text is complete with nothing shown, and `onComplete` never runs, however many ticks pass |
| TypingEffect.RestartForgetsProgress | components/useTypingEffect.ts:33-34 | after a change of input the animation restarts at index 0 with nothing shown; it is complete only for empty text |
| TypingEffect.Animate | components/useTypingEffect.ts:36-46 | driving the timer until it stops yields the frames `text[..1]`, …, `text` with one completion, or no frames and no completion for empty text |
| TtsService.MakeUtterance | services/ttsService.ts:18-36 | the utterance uses the given voice and its language, or "en-US" without a voice; the rate is passed through; pitch is 1; the caller's handlers are used (absent ones are null); without callbacks there are no handlers |
| TtsService.Speak | services/ttsService.ts:14-42 | without speech support: only the error is reported and nothing else changes; with it: the current utterance is cancelled (its `onend` runs), then the new utterance becomes the only one queued and starts (its `onstart` runs) |
| TtsService.PauseSpeaking | services/ttsService.ts:45-49 | Speaking becomes Paused and `onpause` runs; in every other state nothing changes |
| TtsService.ResumeSpeaking | services/ttsService.ts:51-55 | Paused becomes Speaking and `onresume` runs; in every other state nothing changes |
| TtsService.StopSpeaking | services/ttsService.ts:57-61 | with speech support the engine always ends Idle, and the `onend` of the utterance in progress runs; without support nothing changes |
| TtsService.StopIsIdempotent | services/ttsService.ts:57-61 | a second stop changes nothing and runs no handler |
| TtsService.PauseResumeRoundTrip | services/ttsService.ts:45-55 | pausing, then resuming, a speaking engine restores it exactly, running only `onpause` and `onresume` |
| TtsService.ExecKeepsSingleUtterance | services/ttsService.ts:14-16 | each command, or a natural end, leaves at most one utterance in the engine, because `speak` cancels before it enqueues |
| TtsService.NeverTwoUtterances | services/ttsService.ts:14-38 | any sequence of commands leaves at most one utterance queued: utterances never overlap |
| ChatInterface.IsJsWhitespace | components/ChatInterface.tsx:49 | the whitespace `trim` removes includes space, tab, line feed, carriage return and no-break space, and never an ASCII letter or digit |
| ChatInterface.LeadingWhitespace | components/ChatInterface.tsx:49 | the count of leading whitespace characters: every counted character is whitespace, and the next one, if any, is not |
| ChatInterface.TrailingWhitespace | components/ChatInterface.tsx:49 | the count of trailing whitespace characters: every counted character is whitespace, and the one before them, if any, is not |
| ChatInterface.Trim | components/ChatInterface.tsx:49 | `trim` yields a slice of the text with only whitespace cut off on either side, neither starting nor ending with whitespace |
| ChatInterface.IsBlank | components/ChatInterface.tsx:49 | `!text.trim()` holds exactly when every character of the text is whitespace (the empty text included) |
| ChatInterface.ReplyText | components/ChatInterface.tsx:61-75 | the AI message text is the reply, or exactly "Apologies, I'm having trouble connecting right now." when the call throws |
| ChatInterface.BeginSend | components/ChatInterface.tsx:49-58 | a send while loading, or of whitespace-only text, changes nothing; otherwise loading is set, a USER message with exactly the submitted text is appended, and the input is cleared |
| ChatInterface.FinishSend | components/ChatInterface.tsx:60-78 | one AI message with the reply text is appended after the earlier messages, and loading is false on both paths |
| ChatInterface.AcceptedSendAddsTwo | components/ChatInterface.tsx:49-78 | an accepted send adds exactly two messages: USER with the text, then AI; earlier messages are untouched; loading ends false and the input empty |
| ChatInterface.RejectedSendChangesNothing | components/ChatInterface.tsx:49 | a send while loading, or of blank text, leaves messages, loading and input unchanged |
| ChatInterface.Step | components/ChatInterface.tsx:48-117 | while a reply is pending only its settlement changes the panel (typing is disabled and sends are refused); a settlement with nothing pending changes nothing; typing never touches the messages; messages change only by one appended at the end |
| ChatInterface.BeginSendKeepsPaired | components/ChatInterface.tsx:49-58 | an accepted send appends a non-blank USER message after a settled conversation and starts loading, keeping it paired |
| ChatInterface.FinishSendKeepsPaired | components/ChatInterface.tsx:60-78 | a settled call appends the AI answer right after its pending question and stops loading, keeping the conversation paired |
| ChatInterface.StepKeepsPaired | components/ChatInterface.tsx:48-79 | sending, settling and typing keep USER/AI alternating, keep USER messages non-blank, and keep loading true exactly when an answer is pending |
| ChatInterface.ReachableIsPaired | components/ChatInterface.tsx:48-79 | every reachable conversation alternates USER/AI, with each answer directly after its question |
| ChatInterface.AppendOnly | components/ChatInterface.tsx:57-75 | messages are only appended: every earlier list is a prefix of every later one |
| MessageView.ShouldAnimate | components/Message.tsx:27 | a question, a message that is not the last, and any message while a request is loading never animate; the last AI message animates when nothing is loading |
| MessageView.AnimatedText | components/Message.tsx:29-30 | the hook is given either the message's text or "", and a non-empty text only when the message animates |
| MessageView.OnlyLastAnswerAnimates | components/ChatInterface.tsx:96-103 | in a rendered list at most the final message animates, only if it is the AI's and nothing is loading; while loading every hook gets "" |
| MessageView.Render | components/Message.tsx:27-36 | a non-animating message shows its full text and shows Listen exactly when it is the AI's; an animating one shows the animator's text and shows Listen exactly when the animation is complete; USER messages never show Listen |
| MessageView.Mount | components/Message.tsx:29-33 | the typing hook gets the message text when animating and "" otherwise, at 30 ms per character |
| MessageView.Rerender | components/Message.tsx:27-33 | with new `isLastMessage`/`isLoading` props the hook keeps its progress if the text it is given is the same, and restarts from the beginning of the new text if it differs |
| MessageView.Tick | components/Message.tsx:22-24 | a tick advances the hook by one of its ticks; the message's full text is played exactly on the tick that completes the animation, and nothing is played on any other tick |
| MessageView.TickNFollowsHook | components/Message.tsx:22-33 | a message's ticks are its hook's ticks, and every text it plays is its own full text |
| MessageView.StaticMessageNeverAutoPlays | components/Message.tsx:29-35 | a non-animating message never plays itself and always shows its full text |
| MessageView.AnimatedMessagePlaysOnce | components/Message.tsx:22-36 | the last AI message with text shows a growing prefix without Listen, then plays its full text exactly once and shows it in full with Listen |
| MessageView.EmptyAnswerNeverAutoPlays | components/Message.tsx:29-36 | an AI message with empty text shows Listen at once and never plays itself |
| MessageView.DemotedMessageNeverAutoPlays | components/Message.tsx:27-33 | a message that stops being the animating one never plays itself afterwards |
| MessageView.RenderedIsPrefix | components/Message.tsx:35-36 | the rendered text is always a prefix of the message, and is all of it whenever Listen shows |
| App.OnSpeechEvent | App.tsx:68-85 | start sets speaking and clears paused; end clears both; pause sets both; resume clears paused and keeps speaking; each keeps `isPaused ⟹ isSpeaking` |
| App.DispatchKeepsFlagsOk | App.tsx:68-85 | any run of handlers keeps `isPaused ⟹ isSpeaking` |
| App.PreferredVoice | App.tsx:29-33 | the default is the first English voice whose name contains "Google", else the first English voice; it is always one of them, and there is none only if there are none |
| App.LoadVoices | App.tsx:21-35 | a non-empty host list replaces the voices with exactly its English ones, in the host's order; an existing selection is kept; with none selected the preferred voice is chosen; an empty host list changes nothing |
| App.DefaultFollowsHostOrder | App.tsx:22-33 | with no voice selected, loading picks the first English "Google" voice in the host's list, else the host's first English voice, else nothing |
| App.LoadVoicesIdempotent | App.tsx:21-35 | the host reporting the same list again changes nothing |
| App.ChangeVoice | App.tsx:49-54 | the first listed voice with the chosen name is selected, or none exactly when no voice has that name; speech ends Idle |
| App.ChangeRate | App.tsx:56-58 | the chosen rate becomes the shell's rate; speech in progress is neither stopped nor restarted, and nothing else changes |
| App.PlayAudio | App.tsx:88-95 | the single queued utterance carries the text, the selected voice, the current rate and all four handlers; the flags then show speaking and not paused; voices, selection, rate, key and conversation stay |
| App.ClearChat | App.tsx:60-65 | only on confirmation: the conversation is replaced by an empty panel, the key increases by one, speech ends Idle, and voices, selection and rate stay |
| App.Init | App.tsx:13-18 | the shell starts on a host with speech, with no voices and none selected, nothing speaking or paused, rate 1, and an empty panel under key 0 |
| App.Step | App.tsx:165 | a reply for a panel whose key is not the current one changes nothing; only a confirmed clear changes the key, by one; the conversation changes only through the mounted panel's own events and a clear |
| App.StepKeepsMirrors | App.tsx:68-100 | every action keeps the flags equal to the engine state, keeps a single utterance that carries the shell's handlers, and keeps the conversation paired |
| App.FlagsAlwaysMirrorEngine | App.tsx:68-100 | after any sequence of actions the flags mirror the engine and `isPaused ⟹ isSpeaking` |
| App.ReachableShellsMirror | App.tsx:15-100 | from the initial state (not speaking, not paused), every reachable state has flags that mirror the engine, and `isPaused ⟹ isSpeaking` |
| App.StaleReplyIsDropped | App.tsx:60-65 | a reply for the panel that a clear replaced leaves the new conversation empty |
| App.ClearStopsPlayback | App.tsx:60-65 | after a confirmed clear, the flags show neither speaking nor paused |
| App.RateReachesUtterance | App.tsx:88-95 | a chosen rate is the rate of the next utterance |

## Left out
- The generation service (`services/geminiService.ts`) is a network call into an SDK. Its outcome is the parameter `ChatInterface.Reply`. That service returns its own fallback text instead of throwing, which `Resolved` covers. The API-key check at start-up is configuration.
- Browser speech engine internals are abstracted. This covers voice loading, the `voiceschanged` event and the timing of events. Events are delivered immediately and in order.
- The `alert` and `console.error` of `speak` are modelled as the reported message `UnsupportedMessage`. The `window.confirm` dialog is a boolean parameter.
- The effect in `App.tsx:20-47` also re-runs whenever `selectedVoice` changes, and its cleanup then stops speech. React's effect re-run schedule is not modelled. In particular, the extra stop after a voice is chosen is not modelled; `ChangeVoice` already stops speech.
- TypingEffect.Update: the hook's effect also re-runs when its `onComplete` callback changes identity (`components/useTypingEffect.ts:19-23,49`). Only changes of `text` and `speed` are modelled. In the program, `Message`'s `onAnimationComplete` gets a new identity whenever the voice or rate changes, so a render with the same text and speed does not always keep the animation.
- TtsService.StopSpeaking: `cancel` is modelled as also clearing the engine's paused state. The Web Speech API specification says `cancel()` does not change the paused state, and that a `speak()` on a paused engine stays paused. Under that reading, the sequence play, pause, stop, play leaves the flags showing neither speaking nor paused while the engine holds a paused utterance. `App.ReachableShellsMirror` relies on the modelled cancel.
- App.Init: the shell is modelled only on a host with speech synthesis. The mount effect reads `window.speechSynthesis` without checking that it exists (`App.tsx:22,38,43`), so on a host without it the effect throws and the shell never runs. The speech layer has its own support checks (`services/ttsService.ts:14,46,52,58`), which `TtsService` models, but the shell never reaches them on such a host.
- MessageView.Rerender: only changes of `isLastMessage` and `isLoading` are modelled. In the program, choosing a voice or a rate gives `playAudio` a new identity (`App.tsx:95`). That changes `handlePlayAudio` (`components/ChatInterface.tsx:86-88`), then `onAnimationComplete` (`components/Message.tsx:22-24`), and so re-runs the typing effect (`components/useTypingEffect.ts:49`). As a result, the last AI message types out again and plays itself again. `MessageView.AnimatedMessagePlaysOnce` promises "exactly once" only while the voice and rate stay fixed.
- React's deferred evaluation of state updaters is not modelled. `text.charAt(i)` is read inside an updater closure. The model appends `text[i]` as intended.
- Timer timing is not modelled. Each interval firing is one tick, and `speed` only decides whether a render restarts the animation.
- Strings are sequences of characters. JavaScript indexes UTF-16 code units, so characters outside the Basic Multilingual Plane are revealed in one tick here, not in two.
- Message ids come from `Date.now()`. They are parameters, and no uniqueness or ordering is claimed for them.
- The speech rate is an opaque `real` that is passed through. The slider's range and step, and `parseFloat` (`App.tsx:56-58`), are not modelled; `App.ChangeRate` takes the parsed number.
- Rendering is not modelled: JSX, styling, icons, scrolling and focus effects, `components/AudioControls.tsx`, `components/WelcomeMessage.tsx` and `components/icons/BotIcon.tsx`. The suggested prompts of `WelcomeMessage` reach the model as ordinary submits.
- Typing into the input is not possible while loading, because the input is disabled (`components/ChatInterface.tsx:117`). `ChatInterface.Step` ignores such events.

=== FILE: app.dfy ===
/** The application shell (App.tsx): the playback flags driven by the speech
    handlers, the voice list and its default choice, the speech rate, the
    clear-conversation action, and the chat panel it mounts under a key.

    The shell passes its four handlers to every utterance it speaks; the
    handlers the speech layer invokes are applied to the flags in the order
    they run. The main result is that the flags always mirror the engine. */
module App {
  import opened Types
  import opened SeqUtil
  import opened TtsService
  import ChatInterface

  // ---- Playback flags --------------------------------------------------

  /** The four speech handlers of the shell: `handleSpeakStart`,
      `handleSpeakEnd`, `handleSpeakPause`, `handleSpeakResume`. */
  datatype SpeechEvent = SpeakStart | SpeakEnd | SpeakPause | SpeakResume

  /** `isSpeaking` and `isPaused`. */
  datatype Flags = Flags(isSpeaking: bool, isPaused: bool)

  /** Paused is a sub-state of speaking. */
  predicate FlagsOk(f: Flags) {
    f.isPaused ==> f.isSpeaking
  }

  /** The effect of one handler on the flags: start and pause set speaking;
      start clears pause, pause sets it; end clears both; resume clears
      pause and leaves speaking alone. */
  function OnSpeechEvent(f: Flags, ev: SpeechEvent): (r: Flags)
    ensures FlagsOk(f) ==> FlagsOk(r)
    ensures ev == SpeakStart ==> r == Flags(true, false)
    ensures ev == SpeakEnd ==> r == Flags(false, false)
    ensures ev == SpeakPause ==> r == Flags(true, true)
    ensures ev == SpeakResume ==> r == Flags(f.isSpeaking, false)
  {
    match ev
    case SpeakStart => Flags(true, false)
    case SpeakEnd => Flags(false, false)
    case SpeakPause => Flags(true, true)
    case SpeakResume => f.(isPaused := false)
  }

  /** The handlers that ran, applied in order. */
  function Dispatch(f: Flags, evs: seq<SpeechEvent>): Flags
    decreases |evs|
  {
    if evs == [] then f else Dispatch(OnSpeechEvent(f, evs[0]), evs[1..])
  }

  /** Any run of handlers keeps paused a sub-state of speaking. */
  lemma {:induction false} DispatchKeepsFlagsOk(f: Flags, evs: seq<SpeechEvent>)
    requires FlagsOk(f)
    ensures FlagsOk(Dispatch(f, evs))
    decreases |evs|
  {
    if evs != [] {
      DispatchKeepsFlagsOk(OnSpeechEvent(f, evs[0]), evs[1..]);
    }
  }

  /** The callbacks `playAudio` passes to `speak`: all four handlers. */
  function ShellCallbacks(): Callbacks<SpeechEvent> {
    Callbacks(Some(SpeakStart), Some(SpeakEnd), Some(SpeakPause), Some(SpeakResume))
  }

  // ---- Voices ------------------------------------------------------------

  /** `v.lang.startsWith('en')` */
  predicate IsEnglish(v: Voice) {
    StartsWith(v.lang, "en")
  }

  /** `v.name.includes('Google')` */
  predicate IsGoogle(v: Voice) {
    Includes(v.name, "Google")
  }

  /** The default among the English voices: the first whose name contains
      "Google", otherwise the first one. */
  function PreferredVoice(english: seq<Voice>): (r: Option<Voice>)
    ensures r.None? <==> english == []
    ensures r.Some? ==> r.value in english
    ensures (exists k :: 0 <= k < |english| && IsGoogle(english[k])) ==>
      exists k :: 0 <= k < |english| && r == Some(english[k]) && IsGoogle(english[k])
        && forall j :: 0 <= j < k ==> !IsGoogle(english[j])
    ensures english != [] && (forall k :: 0 <= k < |english| ==> !IsGoogle(english[k])) ==>
      r == Some(english[0])
  {
    if english == [] then None
    else match FindFirst(english, IsGoogle)
      case Some(k) => Some(english[k])
      case None => Some(english[0])
  }

  // ---- The shell ---------------------------------------------------------

  /** The state of the shell: the English voices, the selected voice, the
      flags, the key of the mounted chat panel and that panel's state, the
      speech rate, and the host's speech platform. */
  datatype Shell = Shell(
    voices: seq<Voice>,
    selectedVoice: Option<Voice>,
    flags: Flags,
    chatKey: nat,
    chat: ChatInterface.ChatState,
    speechRate: real,
    speech: Platform<SpeechEvent>)

  /** The shell as first rendered: no voices, nothing selected, nothing
      speaking, rate 1, an empty panel under key 0. The mount effect reaches
      for the host's speech synthesis unconditionally, so the shell only
      runs on a host that has it. */
  function Init(): (sh: Shell)
    ensures sh.speech.supported && !IsSpeaking(sh.speech.engine)
    ensures !sh.flags.isSpeaking && !sh.flags.isPaused
    ensures sh.chat == ChatInterface.Empty && sh.chatKey == 0 && sh.speechRate == 1.0
    ensures sh.voices == [] && sh.selectedVoice == None
  {
    Shell([], None, Flags(false, false), 0, ChatInterface.Empty, 1.0, Platform(true, Engine([], false)))
  }

  /** Applies a call into the speech layer: the platform changes and the
      handlers it invoked update the flags. */
  function WithSpeech(sh: Shell, e: Effect<SpeechEvent>): Shell {
    sh.(speech := e.platform, flags := Dispatch(sh.flags, e.fired))
  }

  /** `loadVoices`: with a non-empty list from the host, keep the English
      voices, and pick the preferred one when none is selected yet; with an
      empty list, nothing changes. */
  function LoadVoices(sh: Shell, available: seq<Voice>): (r: Shell)
    ensures available == [] ==> r == sh
    ensures available != [] ==> forall v :: v in r.voices <==> v in available && IsEnglish(v)
    ensures available != [] ==> r.voices == Filter(available, IsEnglish)
    ensures available != [] ==> forall k :: 0 <= k < |r.voices| ==> IsEnglish(r.voices[k])
    ensures sh.selectedVoice.Some? ==> r.selectedVoice == sh.selectedVoice
    ensures available != [] && sh.selectedVoice.None? ==> r.selectedVoice == PreferredVoice(r.voices)
    ensures r.flags == sh.flags && r.speech == sh.speech && r.chat == sh.chat
    ensures r.chatKey == sh.chatKey && r.speechRate == sh.speechRate
  {
    if available == [] then sh
    else
      var english := Filter(available, IsEnglish);
      var selected := if sh.selectedVoice.None? && |english| > 0 then PreferredVoice(english) else sh.selectedVoice;
      sh.(voices := english, selectedVoice := selected)
  }

  /** An English voice whose name contains "Google". */
  predicate IsEnglishGoogle(v: Voice) {
    IsEnglish(v) && IsGoogle(v)
  }

  /** Any voice at all. */
  predicate AnyVoice(v: Voice) {
    true
  }

  /** In terms of the host's own list: with no voice selected yet, loading
      selects the first English "Google" voice the host reports, otherwise
      the first English voice it reports, and nothing when it reports no
      English voice. */
  lemma DefaultFollowsHostOrder(sh: Shell, available: seq<Voice>)
    requires available != [] && sh.selectedVoice.None?
    ensures FindFirst(available, IsEnglishGoogle).Some? ==>
      LoadVoices(sh, available).selectedVoice == Some(available[FindFirst(available, IsEnglishGoogle).value])
    ensures FindFirst(available, IsEnglishGoogle).None? && FindFirst(available, IsEnglish).Some? ==>
      LoadVoices(sh, available).selectedVoice == Some(available[FindFirst(available, IsEnglish).value])
    ensures FindFirst(available, IsEnglish).None? ==> LoadVoices(sh, available).selectedVoice.None?
  {
    var english := Filter(available, IsEnglish);
    FindInFilter(available, IsEnglish, IsGoogle, IsEnglishGoogle);
    FindInFilter(available, IsEnglish, AnyVoice, IsEnglish);
    if english != [] {
      assert FindFirst(english, AnyVoice) == Some(0);
    }
  }

  /** The host reporting the same voice list again changes nothing more. */
  lemma LoadVoicesIdempotent(sh: Shell, available: seq<Voice>)
    ensures LoadVoices(LoadVoices(sh, available), available) == LoadVoices(sh, available)
  {
  }

  /** `handleVoiceChange`: select the first listed voice with that name, or
      none, and stop any speech. */
  function ChangeVoice(sh: Shell, name: string): (r: Shell)
    ensures r.selectedVoice.Some? ==> r.selectedVoice.value in sh.voices && r.selectedVoice.value.name == name
    ensures r.selectedVoice.Some? ==> exists k ::
      && 0 <= k < |sh.voices| && r.selectedVoice == Some(sh.voices[k])
      && forall j :: 0 <= j < k ==> sh.voices[j].name != name
    ensures r.selectedVoice.None? <==> forall k :: 0 <= k < |sh.voices| ==> sh.voices[k].name != name
    ensures r.speech.supported == sh.speech.supported
    ensures sh.speech.supported ==> r.speech.engine == IdleEngine()
    ensures r.voices == sh.voices && r.chat == sh.chat && r.chatKey == sh.chatKey && r.speechRate == sh.speechRate
  {
    var selected := match FindFirst(sh.voices, (v: Voice) => v.name == name)
      case Some(k) => Some(sh.voices[k])
      case None => None;
    WithSpeech(sh.(selectedVoice := selected), StopSpeaking(sh.speech))
  }

  /** `handleRateChange`, the parsed number given: the rate applies to the
      next utterance; speech in progress is neither stopped nor restarted. */
  function ChangeRate(sh: Shell, rate: real): (r: Shell)
    ensures r.speechRate == rate
    ensures r.speech == sh.speech && r.flags == sh.flags
    ensures r.voices == sh.voices && r.selectedVoice == sh.selectedVoice
    ensures r.chat == sh.chat && r.chatKey == sh.chatKey
  {
    sh.(speechRate := rate)
  }

  /** `playAudio`: speak the text with the selected voice, the current rate
      and the shell's four handlers. */
  function PlayAudio(sh: Shell, text: string): (r: Shell)
    ensures sh.speech.supported ==>
      r.speech.engine.queue == [MakeUtterance(text, sh.selectedVoice, sh.speechRate, Some(ShellCallbacks()))]
    ensures !sh.speech.supported ==> r == sh
    ensures r.voices == sh.voices && r.selectedVoice == sh.selectedVoice && r.chat == sh.chat
    ensures r.speechRate == sh.speechRate && r.chatKey == sh.chatKey
    ensures r.speech.supported == sh.speech.supported
    ensures sh.speech.supported ==> r.flags == Flags(true, false)
  {
    var e := Speak(sh.speech, text, sh.selectedVoice, sh.speechRate, Some(ShellCallbacks()));
    DispatchShort(sh.flags, e.fired);
    WithSpeech(sh, e)
  }

  /** `handleClearChat`: only when confirmed, stop speech and bump the chat
      key. The new key unmounts the old chat panel, whose cleanup stops
      speech once more, and mounts a fresh one; voices, selection and rate
      stay. */
  function ClearChat(sh: Shell, confirmed: bool): (r: Shell)
    ensures !confirmed ==> r == sh
    ensures confirmed ==>
      && r.chat == ChatInterface.Empty
      && r.chatKey == sh.chatKey + 1
      && r.speech.supported == sh.speech.supported
      && (sh.speech.supported ==> r.speech.engine == IdleEngine())
      && r.voices == sh.voices && r.selectedVoice == sh.selectedVoice && r.speechRate == sh.speechRate
  {
    if !confirmed then sh
    else
      var stopped := WithSpeech(sh, StopSpeaking(sh.speech));
      var unmounted := WithSpeech(stopped, StopSpeaking(stopped.speech));
      unmounted.(chatKey := sh.chatKey + 1, chat := ChatInterface.Empty)
  }

  /** What can happen to the shell: host voice lists, the user's controls,
      events of the mounted chat panel, generation calls settling for the
      panel mounted under a given key, and the host finishing an utterance. */
  datatype Action =
    | VoicesLoaded(available: seq<Voice>)
    | VoiceChosen(name: string)
    | RateChosen(rate: real)
    | ClearPressed(confirmed: bool)
    | Play(text: string)
    | PausePressed
    | ResumePressed
    | StopPressed
    | ChatTyped(text: string)
    | ChatSubmitted(text: string, id: string)
    | ReplySettled(key: nat, reply: ChatInterface.Reply, id: string)
    | SpeechFinished

  /** One action. A generation call that settles for a panel that has since
      been replaced (an older key) no longer has a mounted panel to update. */
  function Step(sh: Shell, a: Action): (r: Shell)
    ensures a.ReplySettled? && a.key != sh.chatKey ==> r == sh
    ensures r.chatKey == if a.ClearPressed? && a.confirmed then sh.chatKey + 1 else sh.chatKey
    ensures r.chat != sh.chat ==>
      || a.ChatTyped? || a.ChatSubmitted? || a.ClearPressed?
      || (a.ReplySettled? && a.key == sh.chatKey)
  {
    match a
    case VoicesLoaded(available) => LoadVoices(sh, available)
    case VoiceChosen(name) => ChangeVoice(sh, name)
    case RateChosen(rate) => ChangeRate(sh, rate)
    case ClearPressed(confirmed) => ClearChat(sh, confirmed)
    case Play(text) => PlayAudio(sh, text)
    case PausePressed => WithSpeech(sh, Exec(sh.speech, Pause))
    case ResumePressed => WithSpeech(sh, Exec(sh.speech, Resume))
    case StopPressed => WithSpeech(sh, Exec(sh.speech, Stop))
    case ChatTyped(text) => sh.(chat := ChatInterface.Step(sh.chat, ChatInterface.Typed(text)))
    case ChatSubmitted(text, id) => sh.(chat := ChatInterface.Step(sh.chat, ChatInterface.Submitted(text, id)))
    case ReplySettled(key, reply, id) =>
      if key == sh.chatKey then sh.(chat := ChatInterface.Step(sh.chat, ChatInterface.Settled(reply, id)))
      else sh
    case SpeechFinished => WithSpeech(sh, Exec(sh.speech, Finish))
  }

  /** The shell after a sequence of actions. */
  function StepAll(sh: Shell, acts: seq<Action>): Shell
    decreases |acts|
  {
    if acts == [] then sh else StepAll(Step(sh, acts[0]), acts[1..])
  }

  /** The flags agree with the engine: speaking exactly when an utterance is
      queued, paused exactly when the engine is paused; at most one
      utterance, carrying the shell's handlers, and none at all on a host
      without speech; the chat panel paired. */
  ghost predicate Mirrors(sh: Shell) {
    && SingleUtterance(sh.speech.engine)
    && (!sh.speech.supported ==> sh.speech.engine == Engine([], false))
    && (forall k :: 0 <= k < |sh.speech.engine.queue| ==> sh.speech.engine.queue[k].handlers == ShellCallbacks())
    && sh.flags.isSpeaking == IsSpeaking(sh.speech.engine)
    && sh.flags.isPaused == sh.speech.engine.paused
    && ChatInterface.Paired(sh.chat)
  }

  /** Applying one or two handlers. */
  lemma DispatchShort(f: Flags, evs: seq<SpeechEvent>)
    requires |evs| <= 2
    ensures |evs| == 0 ==> Dispatch(f, evs) == f
    ensures |evs| == 1 ==> Dispatch(f, evs) == OnSpeechEvent(f, evs[0])
    ensures |evs| == 2 ==> Dispatch(f, evs) == OnSpeechEvent(OnSpeechEvent(f, evs[0]), evs[1])
  {
    if |evs| == 1 {
      assert evs[1..] == [];
    } else if |evs| == 2 {
      var g := OnSpeechEvent(f, evs[0]);
      assert Dispatch(f, evs) == Dispatch(g, evs[1..]);
      assert evs[1..][0] == evs[1] && evs[1..][1..] == [];
      assert Dispatch(g, evs[1..]) == Dispatch(OnSpeechEvent(g, evs[1]), []);
    }
  }

  /** Stopping keeps the flags mirroring the engine: `onend` of the utterance
      in progress, if any, clears both flags. */
  lemma StopKeepsMirrors(sh: Shell)
    requires Mirrors(sh)
    ensures Mirrors(WithSpeech(sh, StopSpeaking(sh.speech)))
  {
    DispatchShort(sh.flags, StopSpeaking(sh.speech).fired);
  }

  /** Speaking keeps the flags mirroring the engine: `onend` of the
      cancelled utterance, then `onstart` of the new one. */
  lemma PlayKeepsMirrors(sh: Shell, text: string)
    requires Mirrors(sh)
    ensures Mirrors(PlayAudio(sh, text))
  {
  }

  /** Pausing and resuming keep the flags mirroring the engine. */
  lemma PauseResumeKeepMirrors(sh: Shell)
    requires Mirrors(sh)
    ensures Mirrors(WithSpeech(sh, PauseSpeaking(sh.speech)))
    ensures Mirrors(WithSpeech(sh, ResumeSpeaking(sh.speech)))
  {
    DispatchShort(sh.flags, PauseSpeaking(sh.speech).fired);
    DispatchShort(sh.flags, ResumeSpeaking(sh.speech).fired);
  }

  /** The host finishing the single utterance keeps the flags mirroring the
      engine: its `onend` clears both flags. */
  lemma FinishKeepsMirrors(sh: Shell)
    requires Mirrors(sh)
    ensures Mirrors(Step(sh, SpeechFinished))
  {
    DispatchShort(sh.flags, EngineFinish(sh.speech.engine).fired);
  }

  /** Every action keeps the flags mirroring the engine. */
  lemma StepKeepsMirrors(sh: Shell, a: Action)
    requires Mirrors(sh)
    ensures Mirrors(Step(sh, a))
  {
    match a
    case VoiceChosen(name) =>
      var sh' := sh.(selectedVoice := ChangeVoice(sh, name).selectedVoice);
      StopKeepsMirrors(sh');
    case ClearPressed(confirmed) =>
      if confirmed {
        StopKeepsMirrors(sh);
        StopKeepsMirrors(WithSpeech(sh, StopSpeaking(sh.speech)));
      }
    case Play(text) => PlayKeepsMirrors(sh, text);
    case PausePressed => PauseResumeKeepMirrors(sh);
    case ResumePressed => PauseResumeKeepMirrors(sh);
    case StopPressed => StopKeepsMirrors(sh);
    case SpeechFinished => FinishKeepsMirrors(sh);
    case ChatTyped(text) =>
      ChatInterface.StepKeepsPaired(sh.chat, ChatInterface.Typed(text));
    case ChatSubmitted(text, id) =>
      ChatInterface.StepKeepsPaired(sh.chat, ChatInterface.Submitted(text, id));
    case ReplySettled(key, reply, id) =>
      ChatInterface.StepKeepsPaired(sh.chat, ChatInterface.Settled(reply, id));
    case _ =>
  }

  /** From the initial shell, whatever happens, the flags mirror the
      engine, so the controls show pause exactly while speech runs and
      resume exactly while it is paused. */
  lemma {:induction false} FlagsAlwaysMirrorEngine(sh: Shell, acts: seq<Action>)
    requires Mirrors(sh)
    ensures Mirrors(StepAll(sh, acts))
    ensures FlagsOk(StepAll(sh, acts).flags)
    decreases |acts|
  {
    if acts == [] {
      assert sh.speech.engine.paused ==> IsSpeaking(sh.speech.engine);
    } else {
      StepKeepsMirrors(sh, acts[0]);
      FlagsAlwaysMirrorEngine(Step(sh, acts[0]), acts[1..]);
    }
  }

  /** The initial shell mirrors its engine, so every reachable shell does. */
  lemma ReachableShellsMirror(acts: seq<Action>)
    ensures Mirrors(StepAll(Init(), acts))
    ensures FlagsOk(StepAll(Init(), acts).flags)
  {
    FlagsAlwaysMirrorEngine(Init(), acts);
  }

  /** Clearing empties the conversation for good: a generation call that was
      pending in the replaced panel settles without touching the new one. */
  lemma StaleReplyIsDropped(sh: Shell, reply: ChatInterface.Reply, id: string)
    ensures Step(ClearChat(sh, true), ReplySettled(sh.chatKey, reply, id)).chat == ChatInterface.Empty
  {
  }

  /** After a confirmed clear nothing is speaking, in the flags as in the
      engine. */
  lemma ClearStopsPlayback(sh: Shell)
    requires Mirrors(sh)
    ensures !ClearChat(sh, true).flags.isSpeaking && !ClearChat(sh, true).flags.isPaused
  {
    StopKeepsMirrors(sh);
    StopKeepsMirrors(WithSpeech(sh, StopSpeaking(sh.speech)));
  }

  /** A chosen rate is the rate of the next utterance. */
  lemma RateReachesUtterance(sh: Shell, rate: real, text: string)
    requires sh.speech.supported
    ensures PlayAudio(ChangeRate(sh, rate), text).speech.engine.queue[0].rate == rate
  {
  }
}

=== FILE: chat_interface.dfy ===
/** The conversation store of the chat panel (components/ChatInterface.tsx):
    the message list, the input field and the loading flag, changed by the
    two halves of `handleSendMessage` and by typing.

    Sending is asynchronous: `BeginSend` is the synchronous part up to the
    `await`, `FinishSend` the part after the generation call has settled.
    The generation call itself is a parameter: its outcome is a `Reply`.
    Message ids come from the clock and are parameters too. */
module ChatInterface {
  import opened Types

  /** The AI message appended when the generation call throws. */
  const Apology := "Apologies, I'm having trouble connecting right now."

  /** The state of one mounted chat panel. */
  datatype ChatState = ChatState(messages: seq<ChatMessage>, inputText: string, isLoading: bool)

  /** How the generation call settled: with a text, or by throwing. */
  datatype Reply = Resolved(text: string) | Threw

  /** A freshly mounted panel. */
  const Empty := ChatState([], "", false)

  /** The characters `String.prototype.trim` removes: the ECMAScript
      WhiteSpace and LineTerminator code points (tab, vertical tab, form
      feed, space, no-break space, byte order mark, the Space_Separator
      characters, line feed, carriage return, line and paragraph separator).
      Letters and digits are never removed. */
  predicate IsJsWhitespace(c: char)
    ensures c == ' ' || c == '\t' || c == '\n' || c == '\r' || c == '\U{00A0}' ==> IsJsWhitespace(c)
    ensures ('0' <= c <= '9') || ('a' <= c <= 'z') || ('A' <= c <= 'Z') ==> !IsJsWhitespace(c)
  {
    || c == '\t' || c == '\U{000B}' || c == '\U{000C}' || c == ' ' || c == '\U{00A0}' || c == '\U{FEFF}'
    || c == '\U{1680}' || ('\U{2000}' <= c <= '\U{200A}') || c == '\U{202F}' || c == '\U{205F}' || c == '\U{3000}'
    || c == '\n' || c == '\r' || c == '\U{2028}' || c == '\U{2029}'
  }

  /** How many whitespace characters the text starts with. */
  function LeadingWhitespace(s: string): (n: nat)
    ensures n <= |s|
    ensures forall k :: 0 <= k < n ==> IsJsWhitespace(s[k])
    ensures n == |s| || !IsJsWhitespace(s[n])
    decreases |s|
  {
    if s != [] && IsJsWhitespace(s[0]) then 1 + LeadingWhitespace(s[1..]) else 0
  }

  /** How many whitespace characters the text ends with. */
  function TrailingWhitespace(s: string): (n: nat)
    ensures n <= |s|
    ensures forall k :: |s| - n <= k < |s| ==> IsJsWhitespace(s[k])
    ensures n == |s| || !IsJsWhitespace(s[|s| - n - 1])
    decreases |s|
  {
    if s != [] && IsJsWhitespace(s[|s| - 1]) then 1 + TrailingWhitespace(s[..|s| - 1]) else 0
  }

  /** `text.trim()`: a slice of the text, with only whitespace cut off on
      either side, that neither starts nor ends with whitespace. */
  function Trim(s: string): (r: string)
    ensures exists i, j ::
      && 0 <= i <= j <= |s| && r == s[i..j]
      && (forall k :: 0 <= k < i ==> IsJsWhitespace(s[k]))
      && (forall k :: j <= k < |s| ==> IsJsWhitespace(s[k]))
    ensures r == [] || (!IsJsWhitespace(r[0]) && !IsJsWhitespace(r[|r| - 1]))
  {
    var i := LeadingWhitespace(s);
    var t := s[i..];
    var m := TrailingWhitespace(t);
    var j := |s| - m;
    assert forall k :: j <= k < |s| ==> IsJsWhitespace(s[k]) by {
      forall k | j <= k < |s|
        ensures IsJsWhitespace(s[k])
      {
        assert s[k] == t[k - i];
      }
    }
    assert i < j ==> s[i..j][0] == s[i] && s[i..j][j - i - 1] == t[|t| - m - 1];
    s[i..j]
  }

  /** `!text.trim()`: the text is empty once trimmed, which happens exactly
      when every character of it is whitespace. */
  predicate IsBlank(text: string)
    ensures IsBlank(text) <==> forall k :: 0 <= k < |text| ==> IsJsWhitespace(text[k])
  {
    Trim(text) == ""
  }

  /** The text of the AI message for a settled generation call. */
  function ReplyText(reply: Reply): (t: string)
    ensures reply.Threw? ==> t == Apology
    ensures reply.Resolved? ==> t == reply.text
  {
    match reply
    case Resolved(text) => text
    case Threw => Apology
  }

  /** Whether `handleSendMessage(text)` gets past its guard. */
  predicate Accepts(s: ChatState, text: string) {
    !s.isLoading && !IsBlank(text)
  }

  /** `handleSendMessage` up to the generation call: a send while loading or
      of blank text changes nothing; otherwise loading is set, a USER message
      with exactly the submitted text is appended and the input is cleared. */
  function BeginSend(s: ChatState, text: string, id: string): (r: ChatState)
    ensures !Accepts(s, text) ==> r == s
    ensures Accepts(s, text) ==>
      && r.isLoading
      && r.messages == s.messages + [ChatMessage(id, text, USER)]
      && r.inputText == ""
  {
    if s.isLoading || IsBlank(text) then s
    else ChatState(s.messages + [ChatMessage(id, text, USER)], "", true)
  }

  /** `handleSendMessage` after the generation call has settled: one AI
      message (the reply, or the apology) is appended and loading is cleared
      on both paths; the input is left as the user has it. */
  function FinishSend(s: ChatState, reply: Reply, id: string): (r: ChatState)
    ensures !r.isLoading && r.inputText == s.inputText
    ensures |r.messages| == |s.messages| + 1 && r.messages[..|s.messages|] == s.messages
    ensures r.messages[|s.messages|] == ChatMessage(id, ReplyText(reply), AI)
  {
    ChatState(s.messages + [ChatMessage(id, ReplyText(reply), AI)], s.inputText, false)
  }

  /** A whole accepted send: exactly two messages are added, the USER
      message with the submitted text and then the AI message, earlier
      messages untouched, and loading is clear again. */
  lemma AcceptedSendAddsTwo(s: ChatState, text: string, reply: Reply, userId: string, aiId: string)
    requires Accepts(s, text)
    ensures var r := FinishSend(BeginSend(s, text, userId), reply, aiId);
      && |r.messages| == |s.messages| + 2
      && r.messages[..|s.messages|] == s.messages
      && r.messages[|s.messages|] == ChatMessage(userId, text, USER)
      && r.messages[|s.messages| + 1].author == AI
      && r.messages[|s.messages| + 1].text == ReplyText(reply)
      && !r.isLoading
      && r.inputText == ""
  {
  }

  /** A rejected send leaves messages, loading flag and input as they were. */
  lemma RejectedSendChangesNothing(s: ChatState, text: string, id: string)
    requires s.isLoading || IsBlank(text)
    ensures BeginSend(s, text, id) == s
  {
  }

  /** What can happen to a mounted panel: the user edits the input, submits
      a text (from the form or a suggested prompt), or the pending
      generation call settles. */
  datatype ChatEvent =
    | Typed(text: string)
    | Submitted(text: string, id: string)
    | Settled(reply: Reply, id: string)

  /** One event. The input is disabled while loading, so typing then has no
      effect; a generation call settles only while one is pending. */
  function Step(s: ChatState, ev: ChatEvent): (r: ChatState)
    ensures s.isLoading && !ev.Settled? ==> r == s
    ensures !s.isLoading && ev.Settled? ==> r == s
    ensures ev.Typed? ==> r.messages == s.messages && r.isLoading == s.isLoading
    ensures r.messages != s.messages ==>
      |r.messages| == |s.messages| + 1 && r.messages[..|s.messages|] == s.messages
    ensures r.isLoading != s.isLoading ==> (ev.Settled? <==> s.isLoading)
  {
    match ev
    case Typed(text) => if s.isLoading then s else s.(inputText := text)
    case Submitted(text, id) => BeginSend(s, text, id)
    case Settled(reply, id) => if s.isLoading then FinishSend(s, reply, id) else s
  }

  /** The panel after a sequence of events. */
  function StepAll(s: ChatState, evs: seq<ChatEvent>): ChatState
    decreases |evs|
  {
    if evs == [] then s else StepAll(Step(s, evs[0]), evs[1..])
  }

  /** The shape of every reachable conversation: USER and AI messages
      alternate starting with USER, no USER message is blank, and loading
      holds exactly when the last message is a USER message awaiting its
      answer. */
  ghost predicate Paired(s: ChatState) {
    && (forall k :: 0 <= k < |s.messages| ==> s.messages[k].author == (if k % 2 == 0 then USER else AI))
    && (forall k :: 0 <= k < |s.messages| && k % 2 == 0 ==> !IsBlank(s.messages[k].text))
    && (s.isLoading <==> |s.messages| % 2 == 1)
  }

  /** An accepted send appends a non-blank USER message after a settled
      conversation and starts loading. */
  lemma BeginSendKeepsPaired(s: ChatState, text: string, id: string)
    requires Paired(s)
    ensures Paired(BeginSend(s, text, id))
  {
    if Accepts(s, text) {
      var m := s.messages + [ChatMessage(id, text, USER)];
      assert forall k :: 0 <= k < |s.messages| ==> m[k] == s.messages[k];
      assert m[|s.messages|].text == text;
    }
  }

  /** A settled call appends the AI answer to the pending question and
      stops loading. */
  lemma FinishSendKeepsPaired(s: ChatState, reply: Reply, id: string)
    requires Paired(s) && s.isLoading
    ensures Paired(FinishSend(s, reply, id))
  {
    var m := s.messages + [ChatMessage(id, ReplyText(reply), AI)];
    assert forall k :: 0 <= k < |s.messages| ==> m[k] == s.messages[k];
  }

  /** Each event keeps the conversation paired. */
  lemma StepKeepsPaired(s: ChatState, ev: ChatEvent)
    requires Paired(s)
    ensures Paired(Step(s, ev))
  {
    match ev
    case Typed(_) =>
    case Submitted(text, id) => BeginSendKeepsPaired(s, text, id);
    case Settled(reply, id) =>
      if s.isLoading {
        FinishSendKeepsPaired(s, reply, id);
      }
  }

  /** Every conversation reached from a fresh panel is paired: each answer
      directly follows the USER message it answers. */
  lemma {:induction false} ReachableIsPaired(s: ChatState, evs: seq<ChatEvent>)
    requires Paired(s)
    ensures Paired(StepAll(s, evs))
    decreases |evs|
  {
    if evs != [] {
      StepKeepsPaired(s, evs[0]);
      ReachableIsPaired(Step(s, evs[0]), evs[1..]);
    }
  }

  /** Messages are only ever appended: every earlier conversation is a
      prefix of every later one. */
  lemma {:induction false} AppendOnly(s: ChatState, evs: seq<ChatEvent>)
    ensures |s.messages| <= |StepAll(s, evs).messages|
    ensures StepAll(s, evs).messages[..|s.messages|] == s.messages
    decreases |evs|
  {
    if evs != [] {
      var t := Step(s, evs[0]);
      assert t.messages[..|s.messages|] == s.messages;
      AppendOnly(t, evs[1..]);
      var f := StepAll(t, evs[1..]);
      assert f.messages[..|s.messages|] == f.messages[..|t.messages|][..|s.messages|];
    }
  }
}

=== FILE: message.dfy ===
/** How one chat message is displayed (components/Message.tsx): whether it
    animates, what text is rendered, when the Listen button shows, and what
    the end of its animation plays. The typing hook is the `TypingEffect`
    model; the `onPlayAudio` callback is represented by the text it is
    called with. */
module MessageView {
  import opened Types
  import TypingEffect

  /** Milliseconds per character of the typing animation; the hook's own
      default is the same. */
  const AnimationSpeed := 30

  /** A message animates only when it is the AI's, it is the last one, and
      no request is loading: a question, an older answer, or any message
      while a request is pending never animates. */
  predicate ShouldAnimate(m: ChatMessage, isLastMessage: bool, isLoading: bool)
    ensures m.author == USER || !isLastMessage || isLoading ==> !ShouldAnimate(m, isLastMessage, isLoading)
    ensures m.author == AI && isLastMessage && !isLoading ==> ShouldAnimate(m, isLastMessage, isLoading)
  {
    m.author == AI && isLastMessage && !isLoading
  }

  /** The text handed to the typing hook: the message's text when animating,
      the empty string otherwise. */
  function AnimatedText(m: ChatMessage, isLastMessage: bool, isLoading: bool): (t: string)
    ensures t == "" || t == m.text
    ensures t != "" ==> ShouldAnimate(m, isLastMessage, isLoading)
    ensures ShouldAnimate(m, isLastMessage, isLoading) ==> t == m.text
  {
    if ShouldAnimate(m, isLastMessage, isLoading) then m.text else ""
  }

  /** In a rendered list of messages, where only the final one is the last
      message, at most one message animates: the final one, and only when
      it is the AI's and nothing is loading. */
  lemma OnlyLastAnswerAnimates(msgs: seq<ChatMessage>, isLoading: bool, k: nat)
    requires k < |msgs|
    ensures ShouldAnimate(msgs[k], k == |msgs| - 1, isLoading) ==>
      k == |msgs| - 1 && msgs[k].author == AI && !isLoading
    ensures isLoading ==> AnimatedText(msgs[k], k == |msgs| - 1, isLoading) == ""
  {
  }

  /** What the message shows. */
  datatype View = View(text: string, showListen: bool)

  /** A mounted message: its props and the state of its typing hook. */
  datatype MessageState = MessageState(
    message: ChatMessage,
    isLastMessage: bool,
    isLoading: bool,
    anim: TypingEffect.Animator)

  /** The message's typing hook is driven by exactly its props. */
  ghost predicate Consistent(ms: MessageState) {
    && TypingEffect.Inv(ms.anim)
    && ms.anim.text == AnimatedText(ms.message, ms.isLastMessage, ms.isLoading)
    && ms.anim.speed == AnimationSpeed
  }

  /** `textToRender` and `showListenButton` for the current hook state. */
  function Render(ms: MessageState): (v: View)
    ensures !ShouldAnimate(ms.message, ms.isLastMessage, ms.isLoading) ==>
      v.text == ms.message.text && (v.showListen <==> ms.message.author == AI)
    ensures ms.message.author == USER ==> !v.showListen
    ensures ShouldAnimate(ms.message, ms.isLastMessage, ms.isLoading) ==>
      v.text == ms.anim.displayed && (v.showListen <==> ms.anim.complete)
  {
    var animate := ShouldAnimate(ms.message, ms.isLastMessage, ms.isLoading);
    View(
      if animate then ms.anim.displayed else ms.message.text,
      ms.message.author == AI && (if animate then ms.anim.complete else true))
  }

  /** The first render of a message: the hook's effect has run once. */
  function Mount(m: ChatMessage, isLastMessage: bool, isLoading: bool): (ms: MessageState)
    ensures Consistent(ms)
    ensures ms.message == m && ms.isLastMessage == isLastMessage && ms.isLoading == isLoading
    ensures ms.anim == TypingEffect.Start(AnimatedText(m, isLastMessage, isLoading), AnimationSpeed)
  {
    MessageState(m, isLastMessage, isLoading,
      TypingEffect.Start(AnimatedText(m, isLastMessage, isLoading), AnimationSpeed))
  }

  /** A later render with new `isLastMessage`/`isLoading` props: the hook
      keeps its progress when the text it is given is the same, and
      restarts from the beginning of the new text when it differs. */
  function Rerender(ms: MessageState, isLastMessage: bool, isLoading: bool): (r: MessageState)
    requires Consistent(ms)
    ensures Consistent(r)
    ensures r.message == ms.message && r.isLastMessage == isLastMessage && r.isLoading == isLoading
    ensures AnimatedText(ms.message, isLastMessage, isLoading) == ms.anim.text ==> r.anim == ms.anim
    ensures AnimatedText(ms.message, isLastMessage, isLoading) != ms.anim.text ==>
      r.anim == TypingEffect.Start(AnimatedText(ms.message, isLastMessage, isLoading), AnimationSpeed)
  {
    MessageState(ms.message, isLastMessage, isLoading,
      TypingEffect.Update(ms.anim, AnimatedText(ms.message, isLastMessage, isLoading), AnimationSpeed))
  }

  /** One tick of the typing timer. When it completes the animation,
      `onAnimationComplete` calls `onPlayAudio` with the message's full text. */
  function Tick(ms: MessageState): (r: (MessageState, Option<string>))
    requires Consistent(ms)
    ensures Consistent(r.0)
    ensures r.0.message == ms.message && r.0.isLastMessage == ms.isLastMessage && r.0.isLoading == ms.isLoading
    ensures r.0.anim == TypingEffect.Tick(ms.anim).next
    ensures r.1.Some? <==> TypingEffect.Tick(ms.anim).completed
    ensures r.1.Some? ==> r.1.value == ms.message.text
  {
    var t := TypingEffect.Tick(ms.anim);
    (ms.(anim := t.next), if t.completed then Some(ms.message.text) else None)
  }

  /** `n` ticks; the second component lists the texts played, in order. */
  function TickN(ms: MessageState, n: nat): (MessageState, seq<string>)
    requires Consistent(ms)
    decreases n
  {
    if n == 0 then (ms, [])
    else
      var (next, played) := Tick(ms);
      var (final, rest) := TickN(next, n - 1);
      (final, (if played.Some? then [played.value] else []) + rest)
  }

  /** The ticks of the message are the ticks of its hook. */
  lemma {:induction false} TickNFollowsHook(ms: MessageState, n: nat)
    requires Consistent(ms)
    ensures TickN(ms, n).0 == ms.(anim := TypingEffect.Run(ms.anim, n).final)
    ensures |TickN(ms, n).1| == TypingEffect.Run(ms.anim, n).completions
    ensures forall k :: 0 <= k < |TickN(ms, n).1| ==> TickN(ms, n).1[k] == ms.message.text
    decreases n
  {
    if n > 0 {
      TickNFollowsHook(Tick(ms).0, n - 1);
    }
  }

  /** A message that does not animate hands the hook the empty text, so it
      never plays itself however many ticks pass, and shows its full text. */
  lemma {:induction false} StaticMessageNeverAutoPlays(m: ChatMessage, isLastMessage: bool, isLoading: bool, n: nat)
    requires !ShouldAnimate(m, isLastMessage, isLoading)
    ensures TickN(Mount(m, isLastMessage, isLoading), n).1 == []
    ensures Render(TickN(Mount(m, isLastMessage, isLoading), n).0).text == m.text
  {
    var ms := Mount(m, isLastMessage, isLoading);
    TickNFollowsHook(ms, n);
    TypingEffect.EmptyTextNeverCompletes(AnimationSpeed, n);
  }

  /** An animating message with text plays its full text exactly once, on
      the tick after its last character is shown; from then on it renders
      that text in full with the Listen button. */
  lemma AnimatedMessagePlaysOnce(m: ChatMessage, n: nat)
    requires ShouldAnimate(m, true, false) && m.text != ""
    ensures TickN(Mount(m, true, false), n).1 == (if n > |m.text| then [m.text] else [])
    ensures n > |m.text| ==> Render(TickN(Mount(m, true, false), n).0) == View(m.text, true)
    ensures n <= |m.text| ==> Render(TickN(Mount(m, true, false), n).0) == View(m.text[..n], false)
  {
    var ms := Mount(m, true, false);
    TickNFollowsHook(ms, n);
    TypingEffect.CompletesExactlyOnce(m.text, AnimationSpeed, n);
    if n <= |m.text| {
      TypingEffect.ShowsPrefixAfterTicks(m.text, AnimationSpeed, n);
    }
  }

  /** An AI message whose text is empty shows Listen at once and never
      plays itself: the hook treats empty text as already complete. */
  lemma {:induction false} EmptyAnswerNeverAutoPlays(m: ChatMessage, n: nat)
    requires m.author == AI && m.text == ""
    ensures TickN(Mount(m, true, false), n).1 == []
    ensures Render(Mount(m, true, false)) == View("", true)
  {
    TickNFollowsHook(Mount(m, true, false), n);
    TypingEffect.EmptyTextNeverCompletes(AnimationSpeed, n);
  }

  /** A message that stops animating (another message arrives, or a request
      starts loading) hands its hook the empty text; from then on it never
      plays itself, whatever point its animation had reached. */
  lemma {:induction false} DemotedMessageNeverAutoPlays(ms: MessageState, isLastMessage: bool, isLoading: bool, n: nat)
    requires Consistent(ms)
    requires !ShouldAnimate(ms.message, isLastMessage, isLoading)
    ensures TickN(Rerender(ms, isLastMessage, isLoading), n).1 == []
  {
    var r := Rerender(ms, isLastMessage, isLoading);
    TickNFollowsHook(r, n);
    TypingEffect.StoppedTimerStaysStopped(r.anim, n);
  }

  /** Whatever the props and however many ticks passed, the rendered text is
      a prefix of the message, and whenever Listen shows it is all of it. */
  lemma RenderedIsPrefix(ms: MessageState)
    requires Consistent(ms)
    ensures |Render(ms).text| <= |ms.message.text|
    ensures Render(ms).text == ms.message.text[..|Render(ms).text|]
    ensures Render(ms).showListen ==> Render(ms).text == ms.message.text
  {
  }
}

=== FILE: tts_service.dfy ===
/** The speech layer (services/ttsService.ts) over an abstract model of the
    host's speech synthesis engine.

    The engine is a queue of utterances plus a paused flag: `speaking` holds
    while an utterance is in the queue (also when paused), `speak` enqueues,
    and `cancel` leaves the engine idle and unpaused. Its event handlers are
    delivered at once and in order; each engine step reports the handlers it
    invoked. `H` is the type of a handler. */
module TtsService {
  import opened Types

  /** Language tag used when no voice is selected. */
  const DefaultLang := "en-US"

  /** Pitch given to every utterance. */
  const FixedPitch := 1

  /** The error reported when the host has no speech synthesis. */
  const UnsupportedMessage := "Sorry, your browser does not support text-to-speech."

  /** A host voice: its name and language tag. */
  datatype Voice = Voice(name: string, lang: string)

  /** The optional handlers a caller of `speak` may pass; also the four
      event-handler slots of an utterance, where None stands for `null`. */
  datatype Callbacks<H> = Callbacks(onStart: Option<H>, onEnd: Option<H>, onPause: Option<H>, onResume: Option<H>)

  /** An utterance as `speak` configures it. The rate is carried through
      without interpretation. */
  datatype Utterance<H> = Utterance(
    text: string,
    voice: Option<Voice>,
    lang: string,
    rate: real,
    pitch: int,
    handlers: Callbacks<H>)

  /** The host's speech engine: the utterance queue, the head being spoken. */
  datatype Engine<H> = Engine(queue: seq<Utterance<H>>, paused: bool)

  /** Whether the host supports speech synthesis at all, and its engine. */
  datatype Platform<H> = Platform(supported: bool, engine: Engine<H>)

  /** The engine after a host step, and the handlers the step invoked. */
  datatype EngineStep<H> = EngineStep(engine: Engine<H>, fired: seq<H>)

  /** The result of a call into the speech layer: the platform afterwards,
      the handlers invoked during the call, and the error reported, if any. */
  datatype Effect<H> = Effect(platform: Platform<H>, fired: seq<H>, alert: Option<string>)

  /** The three observable states of playback. */
  datatype PlayState = Idle | Speaking | Paused

  function NoCallbacks<H>(): Callbacks<H> {
    Callbacks(None, None, None, None)
  }

  /** `speechSynthesis.speaking` */
  predicate IsSpeaking<H>(e: Engine<H>) {
    |e.queue| > 0
  }

  /** The engine's state as the rest of the program sees it. */
  function State<H>(e: Engine<H>): PlayState {
    if |e.queue| == 0 then Idle else if e.paused then Paused else Speaking
  }

  /** The engine can only be paused with an utterance in hand. */
  predicate WellFormed<H>(e: Engine<H>) {
    e.paused ==> |e.queue| > 0
  }

  /** The engine with nothing queued. */
  function IdleEngine<H>(): Engine<H> {
    Engine([], false)
  }

  /** Invoking an optional handler. */
  function Fire<H>(h: Option<H>): seq<H> {
    if h.Some? then [h.value] else []
  }

  // ---- The host engine's own primitives --------------------------------

  /** `speechSynthesis.cancel()`: empties the queue; the utterance being
      spoken ends, and its `onend` handler runs. The engine is taken to be
      unpaused afterwards. */
  function EngineCancel<H>(e: Engine<H>): EngineStep<H> {
    EngineStep(IdleEngine(), if |e.queue| > 0 then Fire(e.queue[0].handlers.onEnd) else [])
  }

  /** `speechSynthesis.speak(u)`: enqueues `u`, which starts at once if the
      queue was empty. */
  function EngineSpeak<H>(e: Engine<H>, u: Utterance<H>): EngineStep<H> {
    EngineStep(e.(queue := e.queue + [u]), if |e.queue| == 0 then Fire(u.handlers.onStart) else [])
  }

  /** `speechSynthesis.pause()`: pauses a running utterance, else nothing. */
  function EnginePause<H>(e: Engine<H>): EngineStep<H> {
    if |e.queue| > 0 && !e.paused then EngineStep(e.(paused := true), Fire(e.queue[0].handlers.onPause))
    else EngineStep(e, [])
  }

  /** `speechSynthesis.resume()`: resumes a paused utterance, else nothing. */
  function EngineResume<H>(e: Engine<H>): EngineStep<H> {
    if |e.queue| > 0 && e.paused then EngineStep(e.(paused := false), Fire(e.queue[0].handlers.onResume))
    else EngineStep(e, [])
  }

  /** The current utterance finishes naturally: its `onend` runs and the
      next one in the queue, if any, starts. */
  function EngineFinish<H>(e: Engine<H>): EngineStep<H> {
    if |e.queue| > 0 && !e.paused then
      var rest := e.queue[1..];
      EngineStep(Engine(rest, false),
        Fire(e.queue[0].handlers.onEnd) + (if |rest| > 0 then Fire(rest[0].handlers.onStart) else []))
    else EngineStep(e, [])
  }

  // ---- The speech layer of the program ----------------------------------

  /** The utterance `speak` builds: the given voice and its language, or the
      default language without one; rate passed through; pitch fixed; the
      caller's handlers, absent ones as null, none at all without callbacks. */
  function MakeUtterance<H>(text: string, voice: Option<Voice>, rate: real, callbacks: Option<Callbacks<H>>): (u: Utterance<H>)
    ensures u.text == text && u.voice == voice && u.rate == rate && u.pitch == 1
    ensures voice.Some? ==> u.lang == voice.value.lang
    ensures voice.None? ==> u.lang == "en-US"
    ensures callbacks.None? ==> u.handlers == Callbacks(None, None, None, None)
    ensures callbacks.Some? ==> u.handlers == callbacks.value
  {
    var lang := match voice
      case Some(v) => v.lang
      case None => DefaultLang;
    var handlers := match callbacks
      case Some(c) => Callbacks(c.onStart, c.onEnd, c.onPause, c.onResume)
      case None => NoCallbacks();
    Utterance(text, voice, lang, rate, FixedPitch, handlers)
  }

  /** `speak`: without speech support, report the error and do nothing else;
      otherwise cancel whatever is playing (its `onend` runs) and start the
      new utterance, which is then the only one in the queue. */
  function Speak<H>(p: Platform<H>, text: string, voice: Option<Voice>, rate: real, callbacks: Option<Callbacks<H>>): (r: Effect<H>)
    ensures !p.supported ==> r == Effect(p, [], Some(UnsupportedMessage))
    ensures p.supported ==>
      var u := MakeUtterance(text, voice, rate, callbacks);
      && r.platform == Platform(true, Engine([u], false))
      && r.alert == None
      && r.fired == (if |p.engine.queue| > 0 then Fire(p.engine.queue[0].handlers.onEnd) else []) + Fire(u.handlers.onStart)
    ensures p.supported ==> State(r.platform.engine) == Speaking
  {
    if !p.supported then Effect(p, [], Some(UnsupportedMessage))
    else
      var cancelled := EngineCancel(p.engine);
      var started := EngineSpeak(cancelled.engine, MakeUtterance(text, voice, rate, callbacks));
      Effect(p.(engine := started.engine), cancelled.fired + started.fired, None)
  }

  /** `pauseSpeaking`: asks the engine to pause only while it reports
      speaking; Speaking becomes Paused, every other state is kept. */
  function PauseSpeaking<H>(p: Platform<H>): (r: Effect<H>)
    ensures r.alert == None && r.platform.supported == p.supported
    ensures State(p.engine) != Speaking || !p.supported ==> r == Effect(p, [], None)
    ensures p.supported && State(p.engine) == Speaking ==>
      && r.platform.engine == p.engine.(paused := true)
      && State(r.platform.engine) == Paused
      && r.fired == Fire(p.engine.queue[0].handlers.onPause)
  {
    if p.supported && IsSpeaking(p.engine) then
      var s := EnginePause(p.engine);
      Effect(p.(engine := s.engine), s.fired, None)
    else Effect(p, [], None)
  }

  /** `resumeSpeaking`: asks the engine to resume only while it reports
      paused; Paused becomes Speaking, every other state is kept. */
  function ResumeSpeaking<H>(p: Platform<H>): (r: Effect<H>)
    ensures r.alert == None && r.platform.supported == p.supported
    ensures State(p.engine) != Paused || !p.supported ==> r == Effect(p, [], None)
    ensures p.supported && State(p.engine) == Paused ==>
      && r.platform.engine == p.engine.(paused := false)
      && State(r.platform.engine) == Speaking
      && r.fired == Fire(p.engine.queue[0].handlers.onResume)
  {
    if p.supported && p.engine.paused then
      var s := EngineResume(p.engine);
      Effect(p.(engine := s.engine), s.fired, None)
    else Effect(p, [], None)
  }

  /** `stopSpeaking`: cancels unconditionally, leaving the engine idle; the
      `onend` of an utterance in progress runs. */
  function StopSpeaking<H>(p: Platform<H>): (r: Effect<H>)
    ensures r.alert == None && r.platform.supported == p.supported
    ensures !p.supported ==> r == Effect(p, [], None)
    ensures p.supported ==> State(r.platform.engine) == Idle && r.platform.engine == IdleEngine()
    ensures p.supported ==>
      r.fired == (if |p.engine.queue| > 0 then Fire(p.engine.queue[0].handlers.onEnd) else [])
  {
    if p.supported then
      var s := EngineCancel(p.engine);
      Effect(p.(engine := s.engine), s.fired, None)
    else Effect(p, [], None)
  }

  /** Stopping twice is stopping once: the second call changes nothing and
      invokes no handler. */
  lemma StopIsIdempotent<H>(p: Platform<H>)
    ensures StopSpeaking(StopSpeaking(p).platform) == Effect(StopSpeaking(p).platform, [], None)
  {
  }

  /** Pausing a speaking engine and resuming it gives back the same engine,
      with exactly the utterance's `onpause` and `onresume` handlers run. */
  lemma PauseResumeRoundTrip<H>(p: Platform<H>)
    requires p.supported && State(p.engine) == Speaking
    ensures WellFormed(PauseSpeaking(p).platform.engine)
    ensures ResumeSpeaking(PauseSpeaking(p).platform).platform == p
    ensures PauseSpeaking(p).fired + ResumeSpeaking(PauseSpeaking(p).platform).fired
      == Fire(p.engine.queue[0].handlers.onPause) + Fire(p.engine.queue[0].handlers.onResume)
  {
  }

  /** The calls the program makes into the speech layer, and the one event
      the host produces by itself: an utterance ending naturally. */
  datatype Command<H> =
    | Say(text: string, voice: Option<Voice>, rate: real, callbacks: Option<Callbacks<H>>)
    | Pause
    | Resume
    | Stop
    | Finish

  /** The effect of one command. */
  function Exec<H>(p: Platform<H>, c: Command<H>): Effect<H>
  {
    match c
    case Say(text, voice, rate, callbacks) => Speak(p, text, voice, rate, callbacks)
    case Pause => PauseSpeaking(p)
    case Resume => ResumeSpeaking(p)
    case Stop => StopSpeaking(p)
    case Finish =>
      var s := EngineFinish(p.engine);
      Effect(p.(engine := s.engine), s.fired, None)
  }

  /** The engine is well formed and holds at most one utterance. */
  ghost predicate SingleUtterance<H>(e: Engine<H>) {
    WellFormed(e) && |e.queue| <= 1
  }

  /** Every command keeps at most one utterance in the engine: `speak`
      cancels before it enqueues, and nothing else enqueues. */
  lemma ExecKeepsSingleUtterance<H>(p: Platform<H>, c: Command<H>)
    requires SingleUtterance(p.engine)
    ensures SingleUtterance(Exec(p, c).platform.engine)
  {
  }

  /** The platform after a sequence of commands. */
  function ExecAll<H>(p: Platform<H>, cs: seq<Command<H>>): Platform<H>
    decreases |cs|
  {
    if cs == [] then p
    else ExecAll(Exec(p, cs[0]).platform, cs[1..])
  }

  /** From an idle engine, any sequence of commands leaves at most one
      utterance queued: the program never overlaps two utterances. */
  lemma {:induction false} NeverTwoUtterances<H>(p: Platform<H>, cs: seq<Command<H>>)
    requires SingleUtterance(p.engine)
    ensures SingleUtterance(ExecAll(p, cs).engine)
    decreases |cs|
  {
    if cs != [] {
      ExecKeepsSingleUtterance(p, cs[0]);
      NeverTwoUtterances(Exec(p, cs[0]).platform, cs[1..]);
    }
  }
}

=== FILE: types.dfy ===
/** The shared record types of the chat (types.ts) and a small Option type
    standing for the values that may be `null` or `undefined` in the program. */
module Types {

  /** `null`/`undefined` versus a present value. */
  datatype Option<+T> = None | Some(value: T)

  /** Who wrote a message. */
  datatype MessageAuthor = USER | AI

  /** One entry of the conversation; immutable once created. */
  datatype ChatMessage = ChatMessage(id: string, text: string, author: MessageAuthor)
}

/** The few sequence and string operations of the JavaScript library the
    program relies on, each defined once with its meaning as contract. */
module SeqUtil {
  import opened Types

  /** `s.startsWith(prefix)` */
  predicate StartsWith(s: string, prefix: string) {
    |prefix| <= |s| && s[..|prefix|] == prefix
  }

  /** `s.includes(sub)`: `sub` occurs in `s` at some offset. */
  predicate Includes(s: string, sub: string)
    decreases |s|
  {
    StartsWith(s, sub) || (|s| > 0 && Includes(s[1..], sub))
  }

  /** `xs.filter(p)`: the elements of `xs` satisfying `p`, in their original
      order (`FilterAppend` and `FilterSingle` state the order,
      `FilterCounts` the multiplicities). */
  function Filter<T(!new)>(xs: seq<T>, p: T -> bool): (r: seq<T>)
    ensures |r| <= |xs|
    ensures forall x :: x in r <==> x in xs && p(x)
  {
    if xs == [] then []
    else
      (if p(xs[0]) then [xs[0]] else []) + Filter(xs[1..], p)
  }

  /** A single element is kept exactly when it passes. */
  lemma FilterSingle<T(!new)>(x: T, p: T -> bool)
    ensures Filter([x], p) == if p(x) then [x] else []
  {
    assert [x][1..] == [];
  }

  /** Filtering a concatenation is concatenating the filtered pieces. With
      `FilterSingle` this fixes the result, order included: it is `xs` with
      the failing elements struck out. */
  lemma {:induction false} FilterAppend<T(!new)>(a: seq<T>, b: seq<T>, p: T -> bool)
    ensures Filter(a + b, p) == Filter(a, p) + Filter(b, p)
    decreases |a|
  {
    if a == [] {
      assert a + b == b;
    } else {
      FilterAppend(a[1..], b, p);
      var head: seq<T> := if p(a[0]) then [a[0]] else [];
      assert Filter(a + b, p) == head + Filter(a[1..] + b, p) by {
        assert (a + b)[0] == a[0];
        assert (a + b)[1..] == a[1..] + b;
      }
      assert head + (Filter(a[1..], p) + Filter(b, p)) == (head + Filter(a[1..], p)) + Filter(b, p);
    }
  }

  /** Each passing element is kept as often as it occurs, each failing one
      not at all. */
  lemma {:induction false} FilterCounts<T(!new)>(xs: seq<T>, p: T -> bool, x: T)
    ensures multiset(Filter(xs, p))[x] == if p(x) then multiset(xs)[x] else 0
    decreases |xs|
  {
    if xs != [] {
      assert xs == [xs[0]] + xs[1..];
      FilterCounts(xs[1..], p, x);
    }
  }

  /** The position that `xs.find(p)` returns the element of: the first one
      satisfying `p`, or None when there is none. */
  function FindFirst<T>(xs: seq<T>, p: T -> bool): (r: Option<nat>)
    ensures r.Some? ==> r.value < |xs| && p(xs[r.value])
    ensures r.Some? ==> forall j :: 0 <= j < r.value ==> !p(xs[j])
    ensures r.None? <==> forall j :: 0 <= j < |xs| ==> !p(xs[j])
  {
    if xs == [] then None
    else if p(xs[0]) then Some(0)
    else match FindFirst(xs[1..], p)
      case None => None
      case Some(k) => Some(k + 1)
  }

  /** Searching the filtered sequence finds the element that a search of the
      whole sequence for "passes the filter and the test" finds: filtering
      keeps the original order. */
  lemma {:induction false} FindInFilter<T(!new)>(xs: seq<T>, p: T -> bool, q: T -> bool, pq: T -> bool)
    requires forall x :: pq(x) == (p(x) && q(x))
    ensures FindFirst(Filter(xs, p), q).None? <==> FindFirst(xs, pq).None?
    ensures FindFirst(xs, pq).Some? ==>
      Filter(xs, p)[FindFirst(Filter(xs, p), q).value] == xs[FindFirst(xs, pq).value]
    decreases |xs|
  {
    if xs != [] {
      var rest := Filter(xs[1..], p);
      FindInFilter(xs[1..], p, q, pq);
      if p(xs[0]) {
        assert Filter(xs, p) == [xs[0]] + rest;
        assert ([xs[0]] + rest)[1..] == rest;
      } else {
        assert Filter(xs, p) == rest;
      }
    }
  }
}

=== FILE: typing_effect.dfy ===
/** The typing animation hook (components/useTypingEffect.ts) as a
    tick-driven state machine.

    Each firing of the interval timer is one discrete `Tick`. A tick of a
    timer that has been cleared never happens, which the model expresses by
    making `Tick` of an inactive animator change nothing and report no
    completion. */
module TypingEffect {

  /** The hook's state: its inputs `text` and `speed`, the effect's local
      index `i`, the two state variables `displayed` and `complete`, and
      whether the interval timer is running. */
  datatype Animator = Animator(
    text: string,
    speed: int,
    i: nat,
    displayed: string,
    complete: bool,
    timerActive: bool)

  /** The new state after one tick, and whether that tick called `onComplete`. */
  datatype TickResult = TickResult(next: Animator, completed: bool)

  /** The final state after a number of ticks, and how often `onComplete` ran. */
  datatype Trace = Trace(final: Animator, completions: nat)

  /** What holds of the hook at every moment: the shown text is the first
      `i` characters of the target, a running timer means the animation is
      unfinished, and a finished animation shows the whole text. */
  ghost predicate Inv(a: Animator) {
    && a.i <= |a.text|
    && a.displayed == a.text[..a.i]
    && (a.timerActive ==> !a.complete && a.text != "")
    && (a.complete ==> a.displayed == a.text && !a.timerActive)
  }

  /** The effect body run for inputs `text` and `speed`. Empty text is
      complete at once and starts no timer; any other text starts from the
      empty prefix with a running timer. */
  function Start(text: string, speed: int): (a: Animator)
    ensures Inv(a)
    ensures a.text == text && a.speed == speed
    ensures a.displayed == "" && a.i == 0
    ensures a.complete <==> text == ""
    ensures a.timerActive <==> text != ""
  {
    if text == "" then Animator(text, speed, 0, "", true, false)
    else Animator(text, speed, 0, "", false, true)
  }

  /** The effect cleanup (on unmount or before a re-run): clears the timer. */
  function Cleanup(a: Animator): (r: Animator)
    ensures !r.timerActive
    ensures r.text == a.text && r.displayed == a.displayed && r.complete == a.complete
    ensures Inv(a) ==> Inv(r)
  {
    a.(timerActive := false)
  }

  /** After cleanup the old interval never fires again: no tick changes
      the hook or calls `onComplete`. */
  lemma CleanupStopsTicks(a: Animator, n: nat)
    ensures Run(Cleanup(a), n) == Trace(Cleanup(a), 0)
  {
    StoppedTimerStaysStopped(Cleanup(a), n);
  }

  /** A render with inputs `text` and `speed`: the effect re-runs (cleanup,
      then a fresh start) only when an input differs from the previous one. */
  function Update(a: Animator, text: string, speed: int): (r: Animator)
    ensures text == a.text && speed == a.speed ==> r == a
    ensures text != a.text || speed != a.speed ==> r == Start(text, speed)
  {
    if text == a.text && speed == a.speed then a
    else Start(text, speed)
  }

  /** One firing of the interval: append the next character, or, once all
      are shown, clear the timer, mark completion and call `onComplete`. */
  function Tick(a: Animator): (r: TickResult)
    ensures Inv(a) ==> Inv(r.next)
    ensures r.completed <==> a.timerActive && a.i >= |a.text|
    ensures r.completed ==> r.next.complete && !r.next.timerActive && r.next.displayed == a.displayed
    ensures !a.timerActive ==> r.next == a
    ensures a.timerActive && a.i < |a.text| ==>
      && r.next.timerActive && r.next.complete == a.complete
      && r.next.i == a.i + 1
      && r.next.displayed == a.displayed + [a.text[a.i]]
    ensures r.next.text == a.text && r.next.speed == a.speed
  {
    if !a.timerActive then TickResult(a, false)
    else if a.i < |a.text| then
      TickResult(a.(displayed := a.displayed + [a.text[a.i]], i := a.i + 1), false)
    else
      TickResult(a.(timerActive := false, complete := true), true)
  }

  /** `n` consecutive ticks. */
  function Run(a: Animator, n: nat): Trace
    decreases n
  {
    if n == 0 then Trace(a, 0)
    else
      var t := Tick(a);
      var rest := Run(t.next, n - 1);
      Trace(rest.final, rest.completions + (if t.completed then 1 else 0))
  }

  /** The invariant holds however many ticks have passed. */
  lemma {:induction false} RunPreservesInv(a: Animator, n: nat)
    requires Inv(a)
    ensures Inv(Run(a, n).final)
    decreases n
  {
    if n > 0 {
      RunPreservesInv(Tick(a).next, n - 1);
    }
  }

  /** After cleanup (or once the animation stopped itself) no tick has any
      effect and `onComplete` is never called again. */
  lemma {:induction false} StoppedTimerStaysStopped(a: Animator, n: nat)
    requires !a.timerActive
    ensures Run(a, n) == Trace(a, 0)
    decreases n
  {
    if n > 0 {
      StoppedTimerStaysStopped(a, n - 1);
    }
  }

  /** While characters remain, each tick reveals exactly one more of them and
      nothing completes. */
  lemma {:induction false} RevealsOneCharPerTick(a: Animator, k: nat)
    requires Inv(a) && a.timerActive
    requires a.i + k <= |a.text|
    ensures Run(a, k) == Trace(a.(i := a.i + k, displayed := a.text[..a.i + k]), 0)
    decreases k
  {
    if k > 0 {
      var b := Tick(a).next;
      assert b == a.(i := a.i + 1, displayed := a.text[..a.i + 1]) by {
        assert a.text[..a.i + 1] == a.text[..a.i] + [a.text[a.i]];
      }
      RevealsOneCharPerTick(b, k - 1);
    }
  }

  /** After `k <= |text|` ticks of a fresh animation exactly the first `k`
      characters are shown, the timer still runs and `onComplete` has not run. */
  lemma ShowsPrefixAfterTicks(text: string, speed: int, k: nat)
    requires text != "" && k <= |text|
    ensures Run(Start(text, speed), k) ==
      Trace(Animator(text, speed, k, text[..k], false, true), 0)
  {
    RevealsOneCharPerTick(Start(text, speed), k);
  }

  /** Completion happens exactly once, on the tick after the last character:
      after `n` ticks of non-empty text, `onComplete` has run once if
      `n > |text|` and not at all otherwise, and from then on the whole text
      is shown with the timer cleared. */
  lemma CompletesExactlyOnce(text: string, speed: int, n: nat)
    requires text != ""
    ensures Run(Start(text, speed), n).completions == (if n > |text| then 1 else 0)
    ensures n > |text| ==>
      var f := Run(Start(text, speed), n).final;
      f.complete && !f.timerActive && f.displayed == text
  {
    var a := Start(text, speed);
    if n <= |text| {
      ShowsPrefixAfterTicks(text, speed, n);
    } else {
      SplitRun(a, |text|, n - |text|);
      ShowsPrefixAfterTicks(text, speed, |text|);
      var b := Run(a, |text|).final;
      assert text[..|text|] == text;
      var c := Tick(b).next;
      assert Run(b, n - |text|) == Trace(Run(c, n - |text| - 1).final, Run(c, n - |text| - 1).completions + 1);
      StoppedTimerStaysStopped(c, n - |text| - 1);
    }
  }

  /** Running `m + k` ticks is running `m` ticks, then `k` more. */
  lemma {:induction false} SplitRun(a: Animator, m: nat, k: nat)
    ensures Run(a, m + k).final == Run(Run(a, m).final, k).final
    ensures Run(a, m + k).completions == Run(a, m).completions + Run(Run(a, m).final, k).completions
    decreases m
  {
    if m > 0 {
      SplitRun(Tick(a).next, m - 1, k);
    }
  }

  /** Empty text: shown empty, complete at once, no timer, and `onComplete`
      never runs however many ticks are offered. */
  lemma {:induction false} EmptyTextNeverCompletes(speed: int, n: nat)
    ensures Run(Start("", speed), n) == Trace(Start("", speed), 0)
    ensures Start("", speed).complete && Start("", speed).displayed == ""
  {
    StoppedTimerStaysStopped(Start("", speed), n);
  }

  /** A change of either input throws the old progress away: the animation
      restarts from the empty prefix of the new text, and the old timer's
      remaining ticks belong to no one. */
  lemma RestartForgetsProgress(a: Animator, text: string, speed: int)
    requires text != a.text || speed != a.speed
    ensures Update(a, text, speed).displayed == ""
    ensures Update(a, text, speed).i == 0
    ensures Update(a, text, speed).complete <==> text == ""
  {
  }

  /** Drives the interval until it stops by itself and returns every text the
      hook displayed after a tick, in order, with the number of completions. */
  method Animate(text: string, speed: int) returns (frames: seq<string>, completions: nat)
    ensures text == "" ==> frames == [] && completions == 0
    ensures text != "" ==> |frames| == |text| + 1 && completions == 1
    ensures forall k :: 0 <= k < |frames| - 1 ==> frames[k] == text[..k + 1]
    ensures text != "" ==> frames[|frames| - 1] == text
  {
    var a := Start(text, speed);
    frames := [];
    completions := 0;
    while a.timerActive
      invariant Inv(a) && a.text == text
      invariant a.timerActive ==> |frames| == a.i && completions == 0
      invariant !a.timerActive ==> (text == "" ==> frames == [] && completions == 0)
      invariant !a.timerActive && text != "" ==> |frames| == |text| + 1 && completions == 1 && frames[|text|] == text
      invariant forall k :: 0 <= k < |frames| && k < |text| ==> frames[k] == text[..k + 1]
      decreases |text| - a.i, a.timerActive
    {
      var t := Tick(a);
      if t.completed {
        completions := completions + 1;
      }
      a := t.next;
      frames := frames + [a.displayed];
    }
  }
}
